=== FILE: README.md ===
# videos-downloader: the download job, modelled in Dafny

The downloader is a one-page Streamlit form. The user enters a video URL, a file name without extension, a destination subfolder and optional subtitle languages. Submitting the form does five things:

1. It cleans the URL.
2. It builds a `yt-dlp` command line.
3. It streams the tool's output. Each line moves a progress bar or a status placeholder, and a window shows the last 18 log lines.
4. If the tool exits with code 0, it deletes the sidecar files from the temporary folder and moves the finished media file to the destination folder.
5. It ends with an error, a warning or a success message.

This project models those steps as pure functions over sequences and sets and proves what each step guarantees.

| file | module | models |
|---|---|---|
| `options.dfy` | `Options` | `Option` |
| `strings.dfy` | `Strings` | the Python `str` operations used: `in`, `split`, `join`, `rstrip("\n")` |
| `url.dfy` | `Url` | `sanitize_url` |
| `command.dfy` | `Command` | destination resolution and the argument list |
| `progress.dfy` | `Progress` | the two percentage regexes, the clamp, the status labels, the log window and the streaming loop |
| `postprocess.dfy` | `PostProcess` | `move_final_file` and `cleanup_extras` over a filesystem of name sets |
| `job.dfy` | `Job` | one submission from validation to outcome |
| `progress_examples.dfy`, `postprocess_examples.dfy` | `ProgressExamples`, `PostProcessExamples` | worked examples on concrete lines and folders |

Design decisions:

- **Percentages are integer tenths of a percent.** `"42.5"` is 425. The regex captures at most three digits before the optional single decimal, so tenths represent every value `float(m.group(1))` can take exactly. The shown value `int(min(100, pct))` is the clamped tenths divided by 10.
- **The regexes have two definitions.** The declarative one says the pattern fits at a start with a given digit count (`Progress.ShapeAt`). `re.search` returns the leftmost start and, there, the greediest count (`Progress.LeftmostGreedy`). The operational `Progress.Search` tries only one count per start: the digit run capped at three. `Progress.SearchFinds` proves the two agree.
- **The filesystem is two sets of file names.** One set is the temporary folder and the other is the destination folder. Globs are stated twice:
  - as the existence of a split `base + middle + ext` (`PostProcess.GlobStarExt`, `PostProcess.GlobPartial`);
  - as a direct prefix/suffix test, which the cleanup uses.

  Lemmas prove the two agree.
- **The streaming loop is `Progress.Stream`.** Its invariants say that, after `i` lines, the full log is every line so far with trailing newlines stripped (`Progress.StripAll`). The window is the log's last 18 entries. The bar and status are what the effects of those lines settle to (`Progress.Settle` of `Progress.LineEffects`).
- **`foo.part` is kept by the cleanup.** The glob `{base}*.*.part` (app/main.py:65) needs a dot between the base and `.part`. `PostProcessExamples.PartialNames` states this.
- **A line reading `1000%` shows 0.** The integer regex cannot start at `1`, because three digits are followed by a digit, not `%`. It therefore matches `000` one character later, which is what `re.search` does in the source. `ProgressExamples.ThousandReadsZero` records this.

## Model

| member | source | states |
|---|---|---|
| Url.Sanitize | app/main.py:38-41 | The result is a prefix of the URL with no `&t=`/`?t=` starting inside it, and it ends exactly where such a marker starts (or at the end). |
| Url.CutBeforeMarkers | app/main.py:39-40 | Cutting at the first `&t=` and then at the first `?t=` leaves a prefix before any marker of either kind. The prefix stops at the first marker of either kind, even when a `?t=` would overlap the cut. |
| Url.SanitizeIsClean | app/main.py:38-41 | The sanitised URL contains no timestamp marker anywhere. |
| Url.SanitizeFixesClean | app/main.py:38-41 | A URL is returned unchanged if and only if it contains no timestamp marker. |
| Url.SanitizeIdempotent | app/main.py:38-41 | Sanitising twice equals sanitising once. |
| Url.NoMarkerBefore | app/main.py:38-41 | Appending a marker to a clean URL creates no marker inside the clean part. |
| Url.SanitizeDropsTimestamp | app/main.py:38-41 | Appending `&t=…` or `?t=…` to a clean URL and sanitising returns the clean URL exactly (round trip). |
| Url.DropsMarker | app/main.py:38-41 | Round trip for one marker kind. |
| Strings.Before | app/main.py:39-40 | `s.split(sep)[0]` is the prefix before the first occurrence of `sep` and contains no `sep`. |
| Strings.Contains | app/main.py:189-194 | `pat in s` holds if and only if `pat` occurs at some index. |
| Strings.Join | app/main.py:148 | `",".join(subs_selected)`: the first language starts the result, the last ends it, and the result is as long as the languages plus one separator per gap. `Strings.SplitJoin` inverts it. |
| Strings.SplitJoin | app/main.py:148 | Splitting a comma-joined list at the commas gives the list back when no element contains a comma. |
| Strings.StripNewlines | app/main.py:176 | `rstrip("\n")` returns a prefix that does not end in a newline, and everything it cut off is newlines. |
| Command.ResolveDest | app/main.py:99-101 | The destination equals the root if and only if `/` is chosen. Otherwise it is the root, a `/`, then the subfolder. |
| Command.Build | app/main.py:109-163 | The argument count is 31, plus 7 with subtitles, plus 2 with a cookie file, plus 1. The first 31 arguments are the fixed policy. The last argument is the sanitised URL. With languages, the subtitle block follows the policy with the comma-joined list. With a cookie file, `--cookies <path>` comes just before the URL. |
| Command.PolicyLacksSubtitleFlag | app/main.py:112-144 | No argument of the fixed policy part is `--write-subs`. |
| Command.PolicyLacksCookieFlag | app/main.py:112-144 | No argument of the fixed policy part is `--cookies`. |
| Command.SubtitleBlockOnce | app/main.py:146-157 | The subtitle block appears at index `p` if and only if languages were chosen and `p` is 31, right after the policy. |
| Command.LanguageListRoundTrip | app/main.py:147-153 | The `--sub-langs` value split at commas gives back exactly the chosen languages. |
| Command.CookieFlagIff | app/main.py:109-163 | At every index `p` of the argument list, the URL's included, `--cookies` sits at `p` if and only if the cookie file exists and `p` is the third-from-last index. |
| Progress.WidthIsDigitRun | app/main.py:180 | At a given start, either pattern can only take the run of digits there, capped at three. |
| Progress.Search | app/main.py:180 | Any match found is at or after the search start and fits the pattern. |
| Progress.SearchFinds | app/main.py:180 | The search returns the leftmost, greediest match, as `re.search` does. It returns nothing exactly when the pattern fits nowhere from the start on. |
| Progress.LeftmostGreedyUnique | app/main.py:180 | The leftmost greedy match is unique. |
| Progress.FirstShape | app/main.py:180 | A fitting match with no fitting start before it is the leftmost greedy match. |
| Progress.NoShape | app/main.py:180 | A pattern that fails at every start with the capped digit run matches nowhere. |
| Progress.DigitsValue | app/main.py:183 | `n` digits have a value below `10^n`, and the last digit is the value's units digit. |
| Progress.DigitsValueLeading | app/main.py:183 | Read from the left, the leading digit is worth its value times `10^(n-1)` and the rest add their own value. Together with the units digit, this fixes the value of every digit string. |
| Progress.Tenths | app/main.py:183 | `float(m.group(1))` in tenths: the whole part is the value of the captured digits, the tenths digit is the digit after the point (0 for the integer pattern), and the value is below 1000%. |
| Progress.Clamp | app/main.py:184 | `min(100, pct)`: the result is at most 100%, and equals the input unless the input exceeds 100%. |
| Progress.Shown | app/main.py:185 | `int(pct)`: the shown value is the whole percent below the tenths value, at most 100 for a clamped value. |
| Progress.StatusLabels | app/main.py:188-194 | Each label fires if and only if its phrase occurs in the line. |
| Progress.StatusLabelsInCheckOrder | app/main.py:188-194 | Labels fire in check order, each at most once, so the last one is what the placeholder keeps. |
| Progress.ParseLine | app/main.py:180-194 | A line either sets a progress of at most 100% or sets the status labels of the line. |
| Progress.ParseLineSetsProgressIff | app/main.py:180-181 | A line sets the progress if and only if one of the two patterns matches somewhere in it. |
| Progress.ParseLineDecimal | app/main.py:180-185 | When the decimal pattern matches, the value is its leftmost greedy match, clamped. |
| Progress.ParseLineInteger | app/main.py:180-185 | Only when the decimal pattern matches nowhere is the value the leftmost greedy integer match, clamped. |
| Progress.LineEffectsClamped | app/main.py:175-184 | Every line's effect is the parse of its stripped text, and every progress value in the effects is at most 100%. |
| Progress.ClampedInit | app/main.py:184 | Dropping the last effect keeps every progress value clamped. |
| Progress.Settle | app/main.py:180-194 | Settling effects never touches the log window. |
| Progress.SettleShowsLastProgress | app/main.py:181-185 | The bar shows the value of the last line that set one, or 0 if none did, and never more than 100. |
| Progress.SettleShowsLastStatus | app/main.py:188-194 | The placeholder shows the last label of the last line that fired one, or nothing if none did. |
| Progress.LastN | app/main.py:178 | `log[-18:]` holds the last min(n, 18) entries in order. |
| Progress.Stream | app/main.py:174-194 | The loop strips each line, appends it to the full log, shows the last 18 entries and applies the line's effect. Afterwards the window holds the last min(n, 18) stripped lines in arrival order. The bar and status are what the effects of all lines settle to. |
| PostProcess.Probe | app/main.py:49-51 | Returns the first extension, in `.mkv`, `.mp4`, `.webm` order, whose media file is present, or none when all are absent. |
| PostProcess.MoveFinal | app/main.py:48-55 | Nothing is returned if and only if no media file is present, and then nothing changes. Otherwise exactly the first present file moves to the destination, and its new path is returned. |
| PostProcess.GlobStarExtIff | app/main.py:59-60 | The glob `{base}*{ext}` matches exactly the names with that prefix and suffix, not overlapping. |
| PostProcess.FragmentMatchesGlob | app/main.py:65 | A name with a dot between the base and `.part` matches `{base}*.*.part`. |
| PostProcess.GlobMatchIsFragment | app/main.py:65 | A name matching `{base}*.*.part` has a dot between the base and `.part`. |
| PostProcess.GlobPartialIff | app/main.py:65 | The glob `{base}*.*.part` matches exactly those names. |
| PostProcess.Cleanup | app/main.py:58-69 | The cleanup only ever deletes files. |
| PostProcess.CleanupMatchesGlobs | app/main.py:58-69 | A file is deleted if and only if it matches `{base}*.srt`, `{base}*.vtt` or `{base}*.*.part`. |
| PostProcess.CleanupSplit | app/main.py:58-69 | Cleaning a folder of kept files plus sidecars leaves exactly the kept files. |
| PostProcess.MediaIsNotSidecar | app/main.py:58-65 | No media file the move probes for matches a cleanup glob. |
| PostProcess.CleanupKeepsMedia | app/main.py:202-204 | Running the cleanup before the move never removes the file the move looks for. |
| Job.Submit | app/main.py:94-214 | `Invalid` if and only if the URL or file name is missing, with no command and no file change. Crash or non-zero exit gives an error and no file change. Exit 0 succeeds if and only if a probed media file was present, then cleans and moves it (details below the table). |
| ProgressExamples.DecimalInText | app/main.py:180-185 | `"  42.5% of ~10MiB"` sets the progress to 42.5%. |
| ProgressExamples.IntegerHundred | app/main.py:180-185 | `"100%"`, which only the integer pattern matches, sets the progress to 100%. |
| ProgressExamples.LeftmostThenClamped | app/main.py:180-185 | `"1234.5%"` sets the progress to 100%: the match is `234.5`, clamped. |
| ProgressExamples.ThousandReadsZero | app/main.py:180-185 | `"1000%"` sets the progress to 0%, because the integer match is `000`. |
| ProgressExamples.DecimalBeatsEarlierInteger | app/main.py:180-185 | `"10% done, 3.5% left"` sets the progress to 3.5%, not 10%: the decimal pattern is tried first over the whole line. |
| ProgressExamples.TwoLabelsFire | app/main.py:180-194 | `"Merging formats; Embedding subtitles"` sets the status labels Merging then Embedding, so Embedding is what shows. |
| PostProcessExamples.MkvBeforeMp4 | app/main.py:48-54 | With `foo.mkv` and `foo.mp4` present, only `foo.mkv` moves. |
| PostProcessExamples.NothingToMove | app/main.py:55 | With no media file for the base present, nothing moves and no path is returned. |
| PostProcessExamples.SubtitleNames | app/main.py:59-60 | `foo.en.srt` is deleted and `bar.srt` is not. |
| PostProcessExamples.PartialNames | app/main.py:65 | `foo.f137.mp4.part` is deleted and `foo.part` is not. |
| PostProcessExamples.CleanupFolder | app/main.py:58-69 | On a concrete folder, exactly `foo.en.srt` and `foo.f137.mp4.part` are deleted. |

`Job.Submit` (app/main.py:94-214) states the following:

- A missing URL or file name gives `Invalid`, no command and no file change. `Invalid` occurs only in that case.
- A valid request's command is the built one.
- A crash gives `ExecutionError`, and a non-zero exit gives `ToolError`. Neither changes any file.
- On exit 0, the result is `Success` if and only if some media file for the base was present. The success path is the first such file's path in the destination.
- The folders end up cleaned, with that file moved.
- On exit 0 the result is always `Success` or `Warning`. `Warning` occurs exactly on exit 0 with no media file for the base, and then only the cleanup's effect remains.
- No file ever appears in the temporary folder or leaves the destination folder.

## Left out

- Streamlit UI: the page set-up, the form widgets, the message texts, the toast, `st.stop`, and the initial "Préparation…" bar (app/main.py:24-28, 72-90, 166-168). The model reports the outcome as a datatype and the screen as a record.
- The final `progress.progress(100)` on success (app/main.py:206). Only the streamed progress is modelled; `Job.Submit` reports the outcome.
- Environment and configuration reading (app/main.py:8-22). This covers the default folders and the parsing of the subtitle language menu. They are parameters (`Job.Config`, the request's language list).
- `list_subdirs` and `ensure_dir` (app/main.py:32-35, 44-45): folder listing and creation, which is filesystem I/O. The folders are assumed to exist.
- Launching `yt-dlp`, reading its merged stdout/stderr and `proc.wait` (app/main.py:170-199). The lines are a parameter of `Progress.Stream`, and how the tool ended is a parameter of `Job.Submit` (`Job.Run`).
- `os.path.isfile` on the cookie path (app/main.py:160). This is the boolean parameter `cookieIsFile`.
- `Command.Build`: path rendering is `dir + "/" + name`, without pathlib's normalisation of repeated or trailing separators. The base file name is assumed to be a plain relative name here too. With a base starting with `/`, the output template `TMP_DOWNLOAD_FOLDER / f"{base_output}.%(ext)s"` (app/main.py:116) drops the temporary folder, while the model keeps it.
- `Command.ResolveDest`: the destination path is rendered by the same `dir + "/" + name`, without pathlib's normalisation.
- `PostProcess.MoveFinal`: the returned path is rendered by the same `dir + "/" + name`, without pathlib's normalisation.
- `PostProcess.MoveFinal`: the base file name is assumed to be a plain name without `/`. The form accepts free text (app/main.py:75). With a `/` in it, the source moves the file to `dest_dir / candidate.name`, which keeps only the last path component (app/main.py:52). The model would keep the whole name.
- `PostProcess.CleanupMatchesGlobs`: the base file name is matched literally. pathlib reads `*`, `?` and `[` in the base as wildcards (app/main.py:60, 65), so for such names the source deletes a different set of files.
- `Command.Build`: the cookie argument is stated in one direction only. `Command.CookieFlagIff` gives the equivalence.
- `Command.CookieFlagIff`: requires that none of the joined language list, the cookie path and the sanitised URL is literally `--cookies`, since then the flag would also appear at that argument's index.
- `Progress.ShapeAt`: digits are ASCII `0`-`9`. Python's `\d` also matches other Unicode decimal digits.
- `Progress.ParseLine`: the `try/except` around `float(...)` (app/main.py:182-187) is not modelled. A matched group is always a valid number, so the except branch never runs.
- `PostProcess.Cleanup`: a failing `unlink` is swallowed in the source. The model assumes every deletion succeeds.
- `PostProcess.Cleanup`: a directory whose name matches a glob is treated like a file.
- `PostProcess.MoveFinal`: the temporary and destination folders are assumed distinct. A subfolder that is itself the temporary folder is not modelled.
- `PostProcess.MoveFinal`: a failing `shutil.move` is not modelled.
- `Job.Submit`: the `final.exists()` re-check is taken to hold after a successful move.

=== FILE: command.dfy ===
/**
 * Destination resolution and the construction of the downloader's argument
 * list. The argument strings are opaque here: what the external tool does
 * with them is not modelled.
 */
module Command {
  import opened Strings
  import Url

  /** The subfolder choice that stands for the library root itself. */
  const RootChoice: string := "/"

  /** `dir / name` on a rendered path. */
  function JoinPath(dir: string, name: string): string {
    dir + "/" + name
  }

  /**
   * The destination folder: the library root when the root is chosen,
   * otherwise the chosen subfolder under it.
   */
  function ResolveDest(root: string, subfolder: string): (d: string)
    ensures d == root <==> subfolder == RootChoice
    ensures StartsWith(d, root)
    ensures subfolder != RootChoice ==> |d| == |root| + 1 + |subfolder| && d[|root| + 1..] == subfolder
    ensures subfolder != RootChoice ==> d[|root|] == '/'
  {
    if subfolder == RootChoice then root else JoinPath(root, subfolder)
  }

  /** Number of arguments in the fixed policy part of the command. */
  const PolicyLength: nat := 31

  /**
   * The fixed policy part: output template and working paths in the
   * temporary folder, mkv merging, format choice and sort order, metadata,
   * thumbnail and chapter embedding, sponsor-segment removal, one fragment
   * at a time, request sleep and retries.
   */
  function Policy(tmpDir: string, base: string): (p: seq<string>)
    ensures |p| == PolicyLength
  {
    [ "yt-dlp", "--newline",
      "-o", JoinPath(tmpDir, base + ".%(ext)s"),
      "--paths", "home:" + tmpDir,
      "--paths", "temp:" + tmpDir,
      "--merge-output-format", "mkv",
      "-f", "bv*+ba/b",
      "--format-sort", "res:4320,fps,codec:av01,codec:vp9.2,codec:vp9,codec:h264",
      "--embed-metadata", "--embed-thumbnail", "--no-write-thumbnail", "--embed-chapters",
      "--convert-thumbnails", "jpg",
      "--sponsorblock-remove", "all",
      "--ignore-errors",
      "--concurrent-fragments", "1",
      "--sleep-requests", "1",
      "--retries", "10",
      "--retry-sleep", "2" ]
  }

  /** The subtitle flags for a comma-separated language list. */
  function SubtitleFlags(csv: string): seq<string> {
    ["--write-subs", "--write-auto-subs", "--sub-langs", csv, "--convert-subs", "srt", "--embed-subs"]
  }

  /** The subtitle block (for any language list) starts at index `p` of `cmd`. */
  predicate SubtitleBlockAt(cmd: seq<string>, p: nat) {
    && p + 7 <= |cmd|
    && cmd[p] == "--write-subs"
    && cmd[p + 1] == "--write-auto-subs"
    && cmd[p + 2] == "--sub-langs"
    && cmd[p + 4] == "--convert-subs"
    && cmd[p + 5] == "srt"
    && cmd[p + 6] == "--embed-subs"
  }

  /**
   * The argument list: the policy part, then the subtitle block when some
   * languages are chosen, then `--cookies <path>` when the cookie file
   * exists, then the sanitised URL as the last argument.
   */
  function Build(url: string, base: string, tmpDir: string, subtitles: seq<string>,
                 cookieIsFile: bool, cookiePath: string): (cmd: seq<string>)
    ensures |cmd| == PolicyLength + (if |subtitles| > 0 then 7 else 0) + (if cookieIsFile then 2 else 0) + 1
    ensures cmd[..PolicyLength] == Policy(tmpDir, base)
    ensures cmd[|cmd| - 1] == Url.Sanitize(url)
    ensures |subtitles| > 0 ==> SubtitleBlockAt(cmd, PolicyLength) && cmd[PolicyLength + 3] == Join(subtitles, ",")
    ensures cookieIsFile ==> cmd[|cmd| - 3] == "--cookies" && cmd[|cmd| - 2] == cookiePath
  {
    var subs := if |subtitles| > 0 then SubtitleFlags(Join(subtitles, ",")) else [];
    var cookies := if cookieIsFile then ["--cookies", cookiePath] else [];
    Policy(tmpDir, base) + subs + cookies + [Url.Sanitize(url)]
  }

  /** No argument of the policy part is `--write-subs`. */
  lemma PolicyLacksSubtitleFlag(tmpDir: string, base: string)
    ensures forall k :: 0 <= k < PolicyLength ==> Policy(tmpDir, base)[k] != "--write-subs"
  {
    var pol := Policy(tmpDir, base);
    assert pol[3][|pol[3]| - 2] == ')';
    assert pol[5][0] != '-' && pol[7][0] != '-';
  }

  /** No argument of the policy part is `--cookies`. */
  lemma PolicyLacksCookieFlag(tmpDir: string, base: string)
    ensures forall k :: 0 <= k < PolicyLength ==> Policy(tmpDir, base)[k] != "--cookies"
  {
    var pol := Policy(tmpDir, base);
    assert pol[3][|pol[3]| - 2] == ')';
    assert pol[5][0] != '-' && pol[7][0] != '-';
    assert pol[1][2] == 'n' && pol[27][2] == 'r';
  }

  /**
   * The subtitle block appears exactly once, right after the policy part,
   * when some languages are chosen, and nowhere when none are.
   */
  lemma SubtitleBlockOnce(url: string, base: string, tmpDir: string, subtitles: seq<string>,
                          cookieIsFile: bool, cookiePath: string, p: nat)
    ensures var cmd := Build(url, base, tmpDir, subtitles, cookieIsFile, cookiePath);
      SubtitleBlockAt(cmd, p) <==> |subtitles| > 0 && p == PolicyLength
  {
    var cmd := Build(url, base, tmpDir, subtitles, cookieIsFile, cookiePath);
    if p < PolicyLength && p + 7 <= |cmd| {
      PolicyLacksSubtitleFlag(tmpDir, base);
      assert cmd[p] == cmd[..PolicyLength][p];
    }
  }

  /**
   * The `--sub-langs` value gives the chosen languages back when split at
   * the commas. The language menu is itself read by splitting a
   * comma-separated setting, so no language code contains a comma.
   */
  lemma LanguageListRoundTrip(url: string, base: string, tmpDir: string, subtitles: seq<string>,
                              cookieIsFile: bool, cookiePath: string)
    requires |subtitles| > 0
    requires forall k :: 0 <= k < |subtitles| ==> ',' !in subtitles[k]
    ensures var cmd := Build(url, base, tmpDir, subtitles, cookieIsFile, cookiePath);
      cmd[PolicyLength + 2] == "--sub-langs" && Split(cmd[PolicyLength + 3], ",") == subtitles
  {
    SplitJoin(subtitles, ',');
  }

  /**
   * The `--cookies` flag appears before the URL exactly when the cookie file
   * exists, and then right before its path, provided neither the language
   * list, the cookie path nor the sanitised URL itself spells `--cookies`.
   */
  lemma CookieFlagIff(url: string, base: string, tmpDir: string, subtitles: seq<string>,
                      cookieIsFile: bool, cookiePath: string, p: nat)
    requires Join(subtitles, ",") != "--cookies" && cookiePath != "--cookies"
    requires Url.Sanitize(url) != "--cookies"
    requires p < |Build(url, base, tmpDir, subtitles, cookieIsFile, cookiePath)|
    ensures var cmd := Build(url, base, tmpDir, subtitles, cookieIsFile, cookiePath);
      cmd[p] == "--cookies" <==> cookieIsFile && p == |cmd| - 3
  {
    var cmd := Build(url, base, tmpDir, subtitles, cookieIsFile, cookiePath);
    if p < PolicyLength {
      PolicyLacksCookieFlag(tmpDir, base);
      assert cmd[p] == cmd[..PolicyLength][p];
    } else if p == |cmd| - 1 {
      assert cmd[p] == Url.Sanitize(url);
    } else if |subtitles| > 0 && p < PolicyLength + 7 {
      assert SubtitleBlockAt(cmd, PolicyLength);
    }
  }
}

=== FILE: job.dfy ===
/**
 * One form submission from start to finish: input validation, command
 * construction, the downloader's exit, then cleanup and move on success.
 * The downloader's run is an input (how it ended); the filesystem is the
 * pair of name sets of the temporary and destination folders.
 */
module Job {
  import opened Options
  import Command
  import PostProcess

  /** What the form submits. */
  datatype Request = Request(url: string, filename: string, subfolder: string, subtitles: seq<string>)

  /** The configured library root, temporary folder and cookie file path. */
  datatype Config = Config(videosRoot: string, tmpDir: string, cookiePath: string)

  /**
   * How the downloader ended: it could not be launched or its output could
   * not be read (an exception), or it exited with a code.
   */
  datatype Run = Crashed | Exited(code: int)

  /** The terminal message of a submission. */
  datatype Outcome =
    | Invalid          // URL or file name missing
    | ExecutionError   // the downloader could not be run
    | ToolError        // the downloader exited with a non-zero code
    | Warning          // exit code 0, but no media file to move
    | Success(path: string)

  /** The outcome, the command that was run (if any) and the folders afterwards. */
  datatype Report = Report(outcome: Outcome, command: Option<seq<string>>, files: PostProcess.Files)

  /** The submission is accepted: both the URL and the file name are non-empty. */
  predicate Valid(req: Request) {
    req.url != "" && req.filename != ""
  }

  function DestDir(cfg: Config, req: Request): string {
    Command.ResolveDest(cfg.videosRoot, req.subfolder)
  }

  function CommandFor(cfg: Config, req: Request, cookieIsFile: bool): seq<string> {
    Command.Build(req.url, req.filename, cfg.tmpDir, req.subtitles, cookieIsFile, cfg.cookiePath)
  }

  /**
   * The outcome of a submission. A missing URL or file name stops it
   * before any command exists or any file changes; a crash or a non-zero
   * exit leaves both folders as they were; exit code 0 runs the cleanup
   * and then the move, and succeeds exactly when one of the probed media
   * files was in the temporary folder to begin with; otherwise it ends in
   * a warning, with only the cleanup done.
   */
  function Submit(req: Request, cfg: Config, cookieIsFile: bool, run: Run, files: PostProcess.Files): (r: Report)
    ensures r.outcome == Invalid <==> !Valid(req)
    ensures !Valid(req) ==> r.command.None? && r.files == files
    ensures Valid(req) ==> r.command == Some(CommandFor(cfg, req, cookieIsFile))
    ensures Valid(req) && run == Crashed ==> r.outcome == ExecutionError && r.files == files
    ensures Valid(req) && run.Exited? && run.code != 0 ==> r.outcome == ToolError && r.files == files
    ensures Valid(req) && run == Exited(0) ==>
      (r.outcome.Success? <==> exists k :: 0 <= k < |PostProcess.MediaExts| && req.filename + PostProcess.MediaExts[k] in files.tmp)
    ensures Valid(req) && run == Exited(0) ==> forall k: nat :: PostProcess.FirstPresent(files.tmp, req.filename, k) ==>
      var name := req.filename + PostProcess.MediaExts[k];
      && r.outcome == Success(Command.JoinPath(DestDir(cfg, req), name))
      && r.files == PostProcess.Files(PostProcess.Cleanup(files.tmp, req.filename) - {name}, files.dest + {name})
    ensures Valid(req) && run == Exited(0) ==> r.outcome.Success? || r.outcome == Warning
    ensures (&& Valid(req) && run == Exited(0)
             && forall k :: 0 <= k < |PostProcess.MediaExts| ==> req.filename + PostProcess.MediaExts[k] !in files.tmp) ==>
      r.outcome == Warning && r.files == PostProcess.Files(PostProcess.Cleanup(files.tmp, req.filename), files.dest)
    ensures r.outcome == Warning ==> r.files == PostProcess.Files(PostProcess.Cleanup(files.tmp, req.filename), files.dest)
    ensures r.files.tmp <= files.tmp && files.dest <= r.files.dest
  {
    if !Valid(req) then Report(Invalid, None, files)
    else
      var cmd := CommandFor(cfg, req, cookieIsFile);
      match run
      case Crashed => Report(ExecutionError, Some(cmd), files)
      case Exited(code) =>
        if code != 0 then Report(ToolError, Some(cmd), files)
        else
          var base := req.filename;
          var cleaned := PostProcess.Files(PostProcess.Cleanup(files.tmp, base), files.dest);
          forall k | 0 <= k < |PostProcess.MediaExts|
            ensures base + PostProcess.MediaExts[k] in cleaned.tmp <==> base + PostProcess.MediaExts[k] in files.tmp
          {
            PostProcess.CleanupKeepsMedia(files.tmp, base, k);
          }
          var moved := PostProcess.MoveFinal(cleaned, DestDir(cfg, req), base);
          match moved.target
          case Some(path) => Report(Success(path), Some(cmd), moved.files)
          case None => Report(Warning, Some(cmd), moved.files)
  }
}

=== FILE: options.dfy ===
/** The optional value used for "nothing found" results (Python's `None`). */
module Options {

  datatype Option<+T> = None | Some(value: T)
}

=== FILE: postprocess.dfy ===
/**
 * The two post-processing steps run after a successful download, over a
 * filesystem modelled as the sets of file names in the temporary folder
 * and in the destination folder: `cleanup_extras` deletes sidecar files,
 * `move_final_file` moves the produced media file.
 */
module PostProcess {
  import opened Options
  import opened Strings
  import Command

  /** The media extensions probed, in priority order. */
  const MediaExts: seq<string> := [".mkv", ".mp4", ".webm"]

  /** The files of both folders. */
  datatype Files = Files(tmp: set<string>, dest: set<string>)

  /** `k` is the first extension, in priority order, whose media file is in `tmp`. */
  predicate FirstPresent(tmp: set<string>, base: string, k: nat) {
    && k < |MediaExts|
    && base + MediaExts[k] in tmp
    && forall j :: 0 <= j < k ==> base + MediaExts[j] !in tmp
  }

  /** The first extension from index `k` on whose media file is in `tmp`. */
  function Probe(tmp: set<string>, base: string, k: nat): (r: Option<nat>)
    requires k <= |MediaExts|
    ensures r.Some? ==> k <= r.value < |MediaExts| && base + MediaExts[r.value] in tmp
    ensures r.Some? ==> forall j :: k <= j < r.value ==> base + MediaExts[j] !in tmp
    ensures r.None? ==> forall j :: k <= j < |MediaExts| ==> base + MediaExts[j] !in tmp
    decreases |MediaExts| - k
  {
    if k == |MediaExts| then None
    else if base + MediaExts[k] in tmp then Some(k)
    else Probe(tmp, base, k + 1)
  }

  /** The result of the move step: the moved file's new path, if any, and the folders after it. */
  datatype MoveResult = MoveResult(target: Option<string>, files: Files)

  /**
   * `move_final_file`: the first of `base.mkv`, `base.mp4`, `base.webm`
   * present in the temporary folder moves to the destination folder under
   * the same name and its new path is returned; every other file stays
   * where it is. With none present nothing changes and nothing is returned.
   */
  function MoveFinal(files: Files, destDir: string, base: string): (r: MoveResult)
    ensures r.target.None? <==> forall k :: 0 <= k < |MediaExts| ==> base + MediaExts[k] !in files.tmp
    ensures r.target.None? ==> r.files == files
    ensures forall k: nat :: FirstPresent(files.tmp, base, k) ==>
      var name := base + MediaExts[k];
      r == MoveResult(Some(Command.JoinPath(destDir, name)), Files(files.tmp - {name}, files.dest + {name}))
  {
    match Probe(files.tmp, base, 0)
    case None => MoveResult(None, files)
    case Some(k) =>
      var name := base + MediaExts[k];
      assert forall k': nat :: FirstPresent(files.tmp, base, k') ==> k' == k;
      MoveResult(Some(Command.JoinPath(destDir, name)), Files(files.tmp - {name}, files.dest + {name}))
  }

  // The two glob shapes: `*` matches any text (file names never contain
  // the separator) and every other character of the pattern, the base
  // file name included, is taken literally. pathlib would read a `*`, `?`
  // or `[` inside the base as a wildcard too; such bases are outside this
  // model.

  /** `name = base + mid + ext` for the given middle part. */
  ghost predicate Splits(name: string, base: string, mid: string, ext: string) {
    name == base + mid + ext
  }

  /** `name` matches the glob `{base}*{ext}`. */
  ghost predicate GlobStarExt(name: string, base: string, ext: string) {
    exists mid :: Splits(name, base, mid, ext)
  }

  /** `name` matches the glob `{base}*.*.part`. */
  ghost predicate GlobPartial(name: string, base: string) {
    exists mid, y :: Splits(name, base, mid + "." + y, ".part")
  }

  /** Starts with `base`, ends with `ext`, and the two do not overlap. */
  predicate HasBaseAndExt(name: string, base: string, ext: string) {
    |base| + |ext| <= |name| && StartsWith(name, base) && EndsWith(name, ext)
  }

  /** A subtitle sidecar: `{base}*.srt` or `{base}*.vtt`. */
  predicate IsSubtitleSidecar(name: string, base: string) {
    HasBaseAndExt(name, base, ".srt") || HasBaseAndExt(name, base, ".vtt")
  }

  /** A leftover fragment: `{base}*.*.part`, a `.` somewhere between base and `.part`. */
  predicate IsPartialFragment(name: string, base: string) {
    HasBaseAndExt(name, base, ".part") && '.' in name[|base|..|name| - 5]
  }

  /** The glob `{base}*{ext}` matches exactly the names with that prefix and suffix, not overlapping. */
  lemma GlobStarExtIff(name: string, base: string, ext: string)
    ensures GlobStarExt(name, base, ext) <==> HasBaseAndExt(name, base, ext)
  {
    if HasBaseAndExt(name, base, ext) {
      var mid := name[|base|..|name| - |ext|];
      assert name == name[..|base|] + mid + name[|name| - |ext|..];
      assert Splits(name, base, mid, ext);
    }
    if GlobStarExt(name, base, ext) {
      var mid :| Splits(name, base, mid, ext);
      assert name[..|base|] == base;
      assert name[|name| - |ext|..] == ext;
    }
  }

  /** A partial fragment has a split the glob `{base}*.*.part` accepts. */
  lemma FragmentMatchesGlob(name: string, base: string)
    requires IsPartialFragment(name, base)
    ensures GlobPartial(name, base)
  {
    var middle := name[|base|..|name| - 5];
    var i :| 0 <= i < |middle| && middle[i] == '.';
    var mid, y := middle[..i], middle[i + 1..];
    assert middle == mid + "." + y;
    assert name == name[..|base|] + middle + name[|name| - 5..];
    assert Splits(name, base, mid + "." + y, ".part");
  }

  /** A name the glob `{base}*.*.part` accepts is a partial fragment. */
  lemma GlobMatchIsFragment(name: string, base: string)
    requires GlobPartial(name, base)
    ensures IsPartialFragment(name, base)
  {
    var mid, y :| Splits(name, base, mid + "." + y, ".part");
    var middle := mid + "." + y;
    assert name == base + middle + ".part";
    assert name[..|base|] == base;
    assert name[|name| - 5..] == ".part";
    assert name[|base|..|name| - 5] == middle;
    assert middle[|mid|] == '.';
  }

  /** The glob `{base}*.*.part` matches exactly the partial fragments. */
  lemma GlobPartialIff(name: string, base: string)
    ensures GlobPartial(name, base) <==> IsPartialFragment(name, base)
  {
    if IsPartialFragment(name, base) {
      FragmentMatchesGlob(name, base);
    }
    if GlobPartial(name, base) {
      GlobMatchIsFragment(name, base);
    }
  }

  /** A file `cleanup_extras` deletes. */
  predicate IsSidecar(name: string, base: string) {
    IsSubtitleSidecar(name, base) || IsPartialFragment(name, base)
  }

  /** `cleanup_extras`: the sidecar files leave the temporary folder, nothing else does. */
  function Cleanup(tmp: set<string>, base: string): (r: set<string>)
    ensures r <= tmp
  {
    set f | f in tmp && !IsSidecar(f, base)
  }

  /**
   * Exactly the files matching `{base}*.srt`, `{base}*.vtt` or
   * `{base}*.*.part` are deleted by the cleanup.
   */
  lemma CleanupMatchesGlobs(tmp: set<string>, base: string)
    ensures forall f :: f in tmp ==>
      (f !in Cleanup(tmp, base) <==> GlobStarExt(f, base, ".srt") || GlobStarExt(f, base, ".vtt") || GlobPartial(f, base))
  {
    forall f | f in tmp ensures IsSidecar(f, base) <==>
      GlobStarExt(f, base, ".srt") || GlobStarExt(f, base, ".vtt") || GlobPartial(f, base)
    {
      GlobStarExtIff(f, base, ".srt");
      GlobStarExtIff(f, base, ".vtt");
      GlobPartialIff(f, base);
    }
  }

  /** Cleaning non-sidecar files together with sidecars leaves exactly the non-sidecar files. */
  lemma CleanupSplit(kept: set<string>, sidecars: set<string>, base: string)
    requires forall f :: f in kept ==> !IsSidecar(f, base)
    requires forall f :: f in sidecars ==> IsSidecar(f, base)
    ensures Cleanup(kept + sidecars, base) == kept
  {
  }

  /** The media files the move step looks for are never deleted by the cleanup. */
  lemma MediaIsNotSidecar(base: string, k: nat)
    requires k < |MediaExts|
    ensures !IsSidecar(base + MediaExts[k], base)
  {
    var name := base + MediaExts[k];
    assert name[|name| - 1] == MediaExts[k][|MediaExts[k]| - 1];
  }

  /** The cleanup keeps every media file the move step probes for. */
  lemma CleanupKeepsMedia(tmp: set<string>, base: string, k: nat)
    requires k < |MediaExts|
    ensures base + MediaExts[k] in Cleanup(tmp, base) <==> base + MediaExts[k] in tmp
  {
    MediaIsNotSidecar(base, k);
  }
}

=== FILE: postprocess_examples.dfy ===
/**
 * Worked folders for the post-processing steps: the move priority with
 * two candidates present, the not-found case, and which names the
 * cleanup deletes.
 */
module PostProcessExamples {
  import opened Options
  import Command
  import opened PostProcess

  /** With `foo.mkv` and `foo.mp4` present, `foo.mkv` moves and `foo.mp4` stays. */
  lemma MkvBeforeMp4()
    ensures MoveFinal(Files({"foo.mkv", "foo.mp4"}, {}), "/videos", "foo")
      == MoveResult(Some("/videos/foo.mkv"), Files({"foo.mp4"}, {"foo.mkv"}))
  {
    var tmp: set<string> := {"foo.mkv", "foo.mp4"};
    assert "foo" + MediaExts[0] == "foo.mkv";
    assert FirstPresent(tmp, "foo", 0);
    assert "foo.mkv"[5] != "foo.mp4"[5];
    assert tmp - {"foo.mkv"} == {"foo.mp4"};
    assert Command.JoinPath("/videos", "foo.mkv") == "/videos/foo.mkv";
    var empty: set<string> := {};
    assert empty + {"foo.mkv"} == {"foo.mkv"};
  }

  /** With none of the three media files present, the result is "not found" and nothing moves. */
  lemma NothingToMove()
    ensures MoveFinal(Files({"foo.en.srt", "bar.mkv"}, {"old.mkv"}), "/videos", "foo")
      == MoveResult(None, Files({"foo.en.srt", "bar.mkv"}, {"old.mkv"}))
  {
    var tmp: set<string> := {"foo.en.srt", "bar.mkv"};
    assert "foo" + MediaExts[0] == "foo.mkv";
    assert "foo" + MediaExts[1] == "foo.mp4";
    assert "foo" + MediaExts[2] == "foo.webm";
    assert "foo.mkv" != "bar.mkv";
  }

  /** `foo.en.srt` matches `foo*.srt`; `bar.srt` does not. */
  lemma SubtitleNames()
    ensures IsSidecar("foo.en.srt", "foo")
    ensures !IsSidecar("bar.srt", "foo")
  {
    assert "foo.en.srt"[..3] == "foo";
    assert "foo.en.srt"[6..] == ".srt";
    assert "bar.srt"[..3][0] != "foo"[0];
  }

  /** `foo.f137.mp4.part` matches `foo*.*.part`; `foo.part` does not (no second dot). */
  lemma PartialNames()
    ensures IsSidecar("foo.f137.mp4.part", "foo")
    ensures !IsSidecar("foo.part", "foo")
  {
    var n := "foo.f137.mp4.part";
    assert n[..3] == "foo";
    assert n[|n| - 5..] == ".part";
    assert n[3..|n| - 5][0] == '.';
    assert "foo.part"[3..3] == [];
    assert "foo.part"[|"foo.part"| - 4..] != ".srt";
    assert "foo.part"[|"foo.part"| - 4..] != ".vtt";
  }

  /**
   * Cleaning a folder with a subtitle, an unrelated subtitle, a bare
   * `.part` file, a fragment and the media file removes only the subtitle
   * and the fragment.
   */
  lemma CleanupFolder()
    ensures Cleanup({"foo.en.srt", "bar.srt", "foo.part", "foo.f137.mp4.part", "foo.mkv"}, "foo")
      == {"bar.srt", "foo.part", "foo.mkv"}
  {
    SubtitleNames();
    PartialNames();
    MediaIsNotSidecar("foo", 0);
    assert "foo" + MediaExts[0] == "foo.mkv";
    CleanupSplit({"bar.srt", "foo.part", "foo.mkv"}, {"foo.en.srt", "foo.f137.mp4.part"}, "foo");
    assert {"bar.srt", "foo.part", "foo.mkv"} + {"foo.en.srt", "foo.f137.mp4.part"}
      == {"foo.en.srt", "bar.srt", "foo.part", "foo.f137.mp4.part", "foo.mkv"};
  }
}

=== FILE: progress.dfy ===
/**
 * What one line of the downloader's output does to the screen: a
 * percentage found by `re.search(r"(\d{1,3}\.\d)%")`, else by
 * `re.search(r"(\d{1,3})%")`, clamped to 100; or, when neither matches,
 * coarse status labels from three substring checks. Then the streaming
 * loop that keeps the log window of the last 18 lines.
 *
 * Percentages are integer tenths: "42.5" is 425.
 */
module Progress {
  import opened Options
  import opened Strings

  /** The two percentage patterns, in the order they are tried. */
  datatype Pattern = DecimalPct | IntegerPct

  predicate IsDigit(c: char) {
    '0' <= c <= '9'
  }

  function DigitValue(c: char): nat
    requires IsDigit(c)
  {
    (c as int - '0' as int) as nat
  }

  /**
   * The pattern matches at index `i` of `s` when its `\d{1,3}` takes
   * exactly `n` digits: `n` digits, then `.`, a digit and `%` for the
   * decimal pattern, or `%` for the integer one.
   */
  predicate ShapeAt(p: Pattern, s: string, i: nat, n: nat) {
    && 1 <= n <= 3
    && i + n <= |s|
    && (forall k :: i <= k < i + n ==> IsDigit(s[k]))
    && match p
       case DecimalPct => i + n + 3 <= |s| && s[i + n] == '.' && IsDigit(s[i + n + 1]) && s[i + n + 2] == '%'
       case IntegerPct => i + n + 1 <= |s| && s[i + n] == '%'
  }

  /** A match: where it starts and how many digits `\d{1,3}` took. */
  datatype Match = Match(start: nat, width: nat)

  /**
   * What `re.search` returns: the leftmost start at or after `from` where
   * the pattern can match, and there the widest `\d{1,3}` that lets the
   * rest match (greedy repetition with backtracking).
   */
  ghost predicate LeftmostGreedy(p: Pattern, s: string, from: nat, m: Match) {
    && from <= m.start
    && ShapeAt(p, s, m.start, m.width)
    && (forall i: nat, n: nat :: from <= i < m.start ==> !ShapeAt(p, s, i, n))
    && (forall n: nat :: m.width < n ==> !ShapeAt(p, s, m.start, n))
  }

  /** The pattern matches somewhere in `s`. */
  ghost predicate Matches(p: Pattern, s: string) {
    exists i: nat, n: nat :: ShapeAt(p, s, i, n)
  }

  /** The number of consecutive digits of `s` from index `i`, counting at most `cap`. */
  function DigitRun(s: string, i: nat, cap: nat): (n: nat)
    requires i <= |s|
    ensures n <= cap && i + n <= |s|
    ensures forall k :: i <= k < i + n ==> IsDigit(s[k])
    ensures n < cap && i + n < |s| ==> !IsDigit(s[i + n])
    decreases cap
  {
    if cap == 0 || i == |s| || !IsDigit(s[i]) then 0 else 1 + DigitRun(s, i + 1, cap - 1)
  }

  /**
   * At a given start both patterns can take only one width: the run of
   * digits there, capped at three. Backtracking to fewer digits leaves a
   * digit where `.` or `%` is needed.
   */
  lemma WidthIsDigitRun(p: Pattern, s: string, i: nat, n: nat)
    requires ShapeAt(p, s, i, n)
    ensures n == DigitRun(s, i, 3)
  {
  }

  /**
   * `re.search` of the pattern in `s` from index `from`: at each start only
   * the capped digit run is tried. That this is the leftmost greedy match
   * is `SearchFinds`.
   */
  function Search(p: Pattern, s: string, from: nat): (m: Option<Match>)
    requires from <= |s|
    ensures m.Some? ==> from <= m.value.start && ShapeAt(p, s, m.value.start, m.value.width)
    decreases |s| - from
  {
    if from == |s| then None
    else
      var n := DigitRun(s, from, 3);
      if ShapeAt(p, s, from, n) then Some(Match(from, n)) else Search(p, s, from + 1)
  }

  /**
   * `Search` returns the leftmost greedy match from `from` on, and nothing
   * exactly when the pattern matches at no start from `from` on.
   */
  lemma {:induction false} SearchFinds(p: Pattern, s: string, from: nat)
    requires from <= |s|
    ensures Search(p, s, from).Some? ==> LeftmostGreedy(p, s, from, Search(p, s, from).value)
    ensures Search(p, s, from).None? ==> forall i: nat, n: nat :: from <= i ==> !ShapeAt(p, s, i, n)
    decreases |s| - from
  {
    if from < |s| {
      if ShapeAt(p, s, from, DigitRun(s, from, 3)) {
        OnlyWidth(p, s, from);
      } else {
        SearchFinds(p, s, from + 1);
        if Search(p, s, from + 1).None? {
          NoShapeExtend(p, s, from);
        } else {
          OnlyWidth(p, s, from);
        }
      }
    }
  }

  /** When the capped digit run fails at `from`, no shape starts at `from` either. */
  lemma NoShapeExtend(p: Pattern, s: string, from: nat)
    requires from < |s| && !ShapeAt(p, s, from, DigitRun(s, from, 3))
    requires forall i: nat, n: nat :: from + 1 <= i ==> !ShapeAt(p, s, i, n)
    ensures forall i: nat, n: nat :: from <= i ==> !ShapeAt(p, s, i, n)
  {
    OnlyWidth(p, s, from);
  }

  /** `WidthIsDigitRun` for every width at once. */
  lemma OnlyWidth(p: Pattern, s: string, i: nat)
    ensures forall n: nat :: ShapeAt(p, s, i, n) ==> n == DigitRun(s, i, 3)
  {
    forall n: nat | ShapeAt(p, s, i, n) ensures n == DigitRun(s, i, 3) {
      WidthIsDigitRun(p, s, i, n);
    }
  }

  /** The leftmost greedy match is unique. */
  lemma LeftmostGreedyUnique(p: Pattern, s: string, from: nat, m1: Match, m2: Match)
    requires LeftmostGreedy(p, s, from, m1) && LeftmostGreedy(p, s, from, m2)
    ensures m1 == m2
  {
  }

  /**
   * When, at every start before `j`, the only width worth trying (the
   * capped digit run) fails, the pattern matches nowhere before `j`.
   */
  lemma NoShapeBefore(p: Pattern, s: string, j: nat)
    requires forall i: nat :: i < j && i <= |s| ==> !ShapeAt(p, s, i, DigitRun(s, i, 3))
    ensures forall i: nat, n: nat :: i < j ==> !ShapeAt(p, s, i, n)
  {
    forall i: nat, n: nat | i < j ensures !ShapeAt(p, s, i, n) {
      if ShapeAt(p, s, i, n) {
        WidthIsDigitRun(p, s, i, n);
      }
    }
  }

  /** A match is what `re.search` finds when no earlier start works. */
  lemma FirstShape(p: Pattern, s: string, m: Match)
    requires ShapeAt(p, s, m.start, m.width)
    requires forall i: nat :: i < m.start ==> !ShapeAt(p, s, i, DigitRun(s, i, 3))
    ensures LeftmostGreedy(p, s, 0, m)
  {
    NoShapeBefore(p, s, m.start);
    forall n: nat | m.width < n ensures !ShapeAt(p, s, m.start, n) {
      if ShapeAt(p, s, m.start, n) {
        WidthIsDigitRun(p, s, m.start, n);
      }
    }
  }

  /** A pattern that fails at every start (with the capped digit run) matches nowhere. */
  lemma NoShape(p: Pattern, s: string)
    requires forall i: nat :: i < |s| ==> !ShapeAt(p, s, i, DigitRun(s, i, 3))
    ensures !Matches(p, s)
  {
    NoShapeBefore(p, s, |s|);
  }

  function Pow10(n: nat): nat {
    if n == 0 then 1 else 10 * Pow10(n - 1)
  }

  /**
   * The decimal value of a string of digits (Python's `int`/`float` on it):
   * `n` digits make a value below `10^n`, and the last digit is the value's
   * units digit.
   */
  function DigitsValue(ds: string): (v: nat)
    requires forall k :: 0 <= k < |ds| ==> IsDigit(ds[k])
    ensures v < Pow10(|ds|)
    ensures |ds| > 0 ==> v % 10 == DigitValue(ds[|ds| - 1])
    decreases |ds|
  {
    if |ds| == 0 then 0 else DigitsValue(ds[..|ds| - 1]) * 10 + DigitValue(ds[|ds| - 1])
  }

  /** Appending a digit to `lead * p + tail` shifts both parts one place. */
  lemma ShiftDigit(lead: nat, p: nat, tail: nat, last: nat)
    ensures (lead * p + tail) * 10 + last == lead * (10 * p) + (tail * 10 + last)
  {
  }

  /**
   * Read from the left, as Python does: the leading digit is worth its value
   * times `10^(n-1)`, and the rest of the digits add their own value.
   */
  lemma {:induction false} DigitsValueLeading(ds: string)
    requires |ds| > 0
    requires forall k :: 0 <= k < |ds| ==> IsDigit(ds[k])
    ensures DigitsValue(ds) == DigitValue(ds[0]) * Pow10(|ds| - 1) + DigitsValue(ds[1..])
    decreases |ds|
  {
    var n := |ds|;
    if n > 1 {
      var init := ds[..n - 1];
      DigitsValueLeading(init);
      assert init[0] == ds[0];
      assert init[1..] == ds[1..][..n - 2];
      var lead, tail, last := DigitValue(ds[0]), DigitsValue(ds[1..][..n - 2]), DigitValue(ds[n - 1]);
      assert DigitsValue(ds) == DigitsValue(init) * 10 + last;
      assert DigitsValue(init) == lead * Pow10(n - 2) + tail;
      assert DigitsValue(ds[1..]) == tail * 10 + last;
      assert Pow10(n - 1) == 10 * Pow10(n - 2);
      ShiftDigit(lead, Pow10(n - 2), tail, last);
    }
  }

  /**
   * The captured group of a match, in tenths of a percent: `float(m.group(1))`.
   * The whole part is the value of the digits before the point, the tenths
   * digit is the digit after it (0 for the integer pattern), and the value
   * stays below 1000%.
   */
  function Tenths(p: Pattern, s: string, m: Match): (t: nat)
    requires ShapeAt(p, s, m.start, m.width)
    ensures t < 10000
    ensures t / 10 == DigitsValue(s[m.start..m.start + m.width])
    ensures p == IntegerPct ==> t % 10 == 0
    ensures p == DecimalPct ==> t % 10 == DigitValue(s[m.start + m.width + 1])
  {
    var whole := DigitsValue(s[m.start..m.start + m.width]);
    assert Pow10(m.width) <= 1000 by {
      assert Pow10(1) == 10 && Pow10(2) == 100 && Pow10(3) == 1000;
    }
    match p
    case DecimalPct => whole * 10 + DigitValue(s[m.start + m.width + 1])
    case IntegerPct => whole * 10
  }

  /** `min(100, pct)`, in tenths. */
  function Clamp(tenths: nat): (c: nat)
    ensures c <= 1000
    ensures c == tenths || (c == 1000 && tenths > 1000)
  {
    if tenths > 1000 then 1000 else tenths
  }

  /** The value shown on the progress bar: `int(pct)` of a clamped percentage. */
  function Shown(pct: nat): (v: nat)
    ensures pct <= 1000 ==> v <= 100
    ensures v * 10 <= pct < v * 10 + 10
  {
    pct / 10
  }

  /** The coarse status labels, in the order the source checks them. */
  datatype Label = Downloading | Merging | Embedding

  /** The log phrase that triggers a label. */
  function Phrase(l: Label): string {
    match l
    case Downloading => "Downloading"
    case Merging => "Merging formats"
    case Embedding => "Embedding subtitles"
  }

  function Rank(l: Label): nat {
    match l
    case Downloading => 0
    case Merging => 1
    case Embedding => 2
  }

  /** A line either sets the progress (clamped tenths) or fires some status labels. */
  datatype Effect = SetProgress(pct: nat) | SetStatus(labels: seq<Label>)

  /**
   * The labels whose phrase occurs in `line`, checked one after another: a
   * label fires exactly when its phrase occurs in the line.
   */
  function StatusLabels(line: string): (labels: seq<Label>)
    ensures Downloading in labels <==> Contains(line, Phrase(Downloading))
    ensures Merging in labels <==> Contains(line, Phrase(Merging))
    ensures Embedding in labels <==> Contains(line, Phrase(Embedding))
  {
    var d := Contains(line, Phrase(Downloading));
    var m := Contains(line, Phrase(Merging));
    var e := Contains(line, Phrase(Embedding));
    (if d then [Downloading] else []) + (if m then [Merging] else []) + (if e then [Embedding] else [])
  }

  /**
   * The labels fire in the order the checks run, each at most once, so the
   * last one is the last check that fired.
   */
  lemma StatusLabelsInCheckOrder(line: string)
    ensures forall i, j :: 0 <= i < j < |StatusLabels(line)| ==>
      Rank(StatusLabels(line)[i]) < Rank(StatusLabels(line)[j])
  {
  }

  /**
   * The effect of one (already stripped) log line: the decimal pattern is
   * searched first, the integer pattern only when it fails, and the status
   * checks only when both fail. Which value is chosen is stated by
   * `ParseLineDecimal` and `ParseLineInteger`.
   */
  function ParseLine(line: string): (e: Effect)
    ensures e.SetProgress? ==> e.pct <= 1000
    ensures e.SetStatus? ==> e.labels == StatusLabels(line)
  {
    match Search(DecimalPct, line, 0)
    case Some(m) => SetProgress(Clamp(Tenths(DecimalPct, line, m)))
    case None =>
      match Search(IntegerPct, line, 0)
      case Some(m) => SetProgress(Clamp(Tenths(IntegerPct, line, m)))
      case None => SetStatus(StatusLabels(line))
  }

  /** A line sets the progress exactly when one of the two patterns matches somewhere. */
  lemma ParseLineSetsProgressIff(line: string)
    ensures ParseLine(line).SetProgress? <==> Matches(DecimalPct, line) || Matches(IntegerPct, line)
  {
    SearchFinds(DecimalPct, line, 0);
    SearchFinds(IntegerPct, line, 0);
  }

  /** When the decimal pattern matches, its leftmost greedy match gives the value, clamped to 100%. */
  lemma ParseLineDecimal(line: string, m: Match)
    requires LeftmostGreedy(DecimalPct, line, 0, m)
    ensures ParseLine(line) == SetProgress(Clamp(Tenths(DecimalPct, line, m)))
  {
    SearchFinds(DecimalPct, line, 0);
    var found := Search(DecimalPct, line, 0);
    LeftmostGreedyUnique(DecimalPct, line, 0, m, found.value);
  }

  /**
   * Only when the decimal pattern matches nowhere, the leftmost greedy
   * integer match gives the value, clamped to 100%.
   */
  lemma ParseLineInteger(line: string, m: Match)
    requires !Matches(DecimalPct, line)
    requires LeftmostGreedy(IntegerPct, line, 0, m)
    ensures ParseLine(line) == SetProgress(Clamp(Tenths(IntegerPct, line, m)))
  {
    SearchFinds(DecimalPct, line, 0);
    SearchFinds(IntegerPct, line, 0);
    var found := Search(IntegerPct, line, 0);
    LeftmostGreedyUnique(IntegerPct, line, 0, m, found.value);
  }

  /** A line that changes the status placeholder: some label fired. */
  predicate FiresStatus(e: Effect) {
    e.SetStatus? && |e.labels| > 0
  }

  /** Number of most recent log lines on screen. */
  const WindowSize: nat := 18

  /** Python's `log[-n:]`: the last `n` entries, or all of them when there are fewer, in order. */
  function LastN<T>(log: seq<T>, n: nat): (w: seq<T>)
    ensures |w| == if |log| < n then |log| else n
    ensures forall k :: 0 <= k < |w| ==> w[k] == log[|log| - |w| + k]
  {
    if |log| <= n then log else log[|log| - n..]
  }

  /** What the screen shows: the progress bar value, the status label, the log window. */
  datatype Screen = Screen(progress: nat, status: Option<Label>, log: seq<string>)

  /** Every progress value in `effects` is already clamped. */
  predicate Clamped(effects: seq<Effect>) {
    forall k :: 0 <= k < |effects| ==> (effects[k].SetProgress? ==> effects[k].pct <= 1000)
  }

  /** The effect of every line of the downloader's output, in order: each line is stripped, then parsed. */
  function LineEffects(lines: seq<string>): seq<Effect> {
    EffectsUnder(ParseLine, lines)
  }

  /**
   * Each line stripped, then given to `parse`. The parser is a parameter so
   * that the per-line bookkeeping of the stream never unfolds `ParseLine`,
   * which keeps those proofs small; only `LineEffects` fixes it.
   */
  function EffectsUnder(parse: string -> Effect, lines: seq<string>): seq<Effect> {
    seq(|lines|, k requires 0 <= k < |lines| => parse(StripNewlines(lines[k])))
  }

  /** One more line adds its effect under `parse` at the end. */
  lemma EffectsOneMore(parse: string -> Effect, lines: seq<string>, i: nat)
    requires i < |lines|
    ensures EffectsUnder(parse, lines[..i + 1]) == EffectsUnder(parse, lines[..i]) + [parse(StripNewlines(lines[i]))]
  {
    assert lines[..i + 1][..i] == lines[..i];
  }

  /**
   * Each line's effect is what `ParseLine` makes of the stripped line, so
   * every progress value in them is clamped to 100%.
   */
  lemma LineEffectsClamped(lines: seq<string>)
    ensures |LineEffects(lines)| == |lines|
    ensures forall k :: 0 <= k < |lines| ==> LineEffects(lines)[k] == ParseLine(StripNewlines(lines[k]))
    ensures Clamped(LineEffects(lines))
  {
  }

  /** Dropping the last effect keeps the rest clamped. */
  lemma ClampedInit(effects: seq<Effect>)
    requires |effects| > 0 && Clamped(effects)
    ensures Clamped(effects[..|effects| - 1])
  {
    var init := effects[..|effects| - 1];
    forall k | 0 <= k < |init| ensures init[k].SetProgress? ==> init[k].pct <= 1000 {
      assert init[k] == effects[k];
    }
  }

  /** Effect `k` is the last one in `effects` that sets the progress. */
  ghost predicate LastProgress(effects: seq<Effect>, k: nat) {
    && k < |effects|
    && effects[k].SetProgress?
    && forall j :: k < j < |effects| ==> !effects[j].SetProgress?
  }

  /** Effect `k` is the last one in `effects` that fires a status label. */
  ghost predicate LastStatus(effects: seq<Effect>, k: nat) {
    && k < |effects|
    && FiresStatus(effects[k])
    && forall j :: k < j < |effects| ==> !FiresStatus(effects[j])
  }

  /** The screen before any line arrived: progress 0, no status, empty log. */
  const Blank: Screen := Screen(0, None, [])

  /** What one effect does to the progress bar and the status placeholder. */
  function Update(sc: Screen, e: Effect): Screen
  {
    match e
    case SetProgress(pct) => sc.(progress := Shown(pct))
    case SetStatus(labels) => if |labels| > 0 then sc.(status := Some(Last(labels))) else sc
  }

  /** Progress bar and status after the given effects, applied one at a time. */
  function Settle(effects: seq<Effect>): (sc: Screen)
    ensures sc.log == []
    decreases |effects|
  {
    if |effects| == 0 then Blank
    else Update(Settle(effects[..|effects| - 1]), effects[|effects| - 1])
  }

  /**
   * The progress bar shows the value set by the last effect that sets one,
   * or 0 when none does.
   */
  lemma {:induction false} SettleShowsLastProgress(effects: seq<Effect>)
    requires Clamped(effects)
    ensures Settle(effects).progress <= 100
    ensures forall k: nat :: LastProgress(effects, k) ==> Settle(effects).progress == Shown(effects[k].pct)
    ensures (forall j :: 0 <= j < |effects| ==> !effects[j].SetProgress?) ==> Settle(effects).progress == 0
    decreases |effects|
  {
    if |effects| > 0 {
      var n := |effects| - 1;
      var init := effects[..n];
      ClampedInit(effects);
      SettleShowsLastProgress(init);
      var e := effects[n];
      assert Settle(effects) == Update(Settle(init), e);
      if e.SetProgress? {
        assert Settle(effects).progress == Shown(e.pct);
        forall k: nat | LastProgress(effects, k) ensures k == n {
        }
      } else {
        assert Settle(effects).progress == Settle(init).progress;
        forall k: nat | LastProgress(effects, k) ensures LastProgress(init, k) {
          forall j | k < j < n ensures !init[j].SetProgress? {
            assert init[j] == effects[j];
          }
        }
        if forall j :: 0 <= j < |effects| ==> !effects[j].SetProgress? {
          forall j | 0 <= j < n ensures !init[j].SetProgress? {
            assert init[j] == effects[j];
          }
        }
      }
    }
  }

  /**
   * The status shows the last label of the last effect that fires one, or
   * nothing when none does.
   */
  lemma {:induction false} SettleShowsLastStatus(effects: seq<Effect>)
    ensures forall k: nat :: LastStatus(effects, k) ==> Settle(effects).status == Some(Last(effects[k].labels))
    ensures (forall j :: 0 <= j < |effects| ==> !FiresStatus(effects[j])) ==> Settle(effects).status == None
    decreases |effects|
  {
    if |effects| > 0 {
      var n := |effects| - 1;
      var init := effects[..n];
      SettleShowsLastStatus(init);
      var e := effects[n];
      assert Settle(effects) == Update(Settle(init), e);
      if FiresStatus(e) {
        assert Settle(effects).status == Some(Last(e.labels));
        forall k: nat | LastStatus(effects, k) ensures k == n {
        }
      } else {
        assert Settle(effects).status == Settle(init).status;
        forall k: nat | LastStatus(effects, k) ensures LastStatus(init, k) {
          forall j | k < j < n ensures !FiresStatus(init[j]) {
            assert init[j] == effects[j];
          }
        }
        if forall j :: 0 <= j < |effects| ==> !FiresStatus(effects[j]) {
          forall j | 0 <= j < n ensures !FiresStatus(init[j]) {
            assert init[j] == effects[j];
          }
        }
      }
    }
  }

  /** Every raw line with its trailing newlines stripped: the full log. */
  function StripAll(lines: seq<string>): seq<string> {
    seq(|lines|, k requires 0 <= k < |lines| => StripNewlines(lines[k]))
  }

  /** One more line adds its stripped text to the full log. */
  lemma LogOneMore(lines: seq<string>, i: nat)
    requires i < |lines|
    ensures StripAll(lines[..i + 1]) == StripAll(lines[..i]) + [StripNewlines(lines[i])]
  {
    assert lines[..i + 1][..i] == lines[..i];
  }

  /** One more line adds its effect to the effects. */
  lemma OneMoreLine(lines: seq<string>, i: nat)
    requires i < |lines|
    ensures LineEffects(lines[..i + 1]) == LineEffects(lines[..i]) + [ParseLine(StripNewlines(lines[i]))]
  {
    EffectsOneMore(ParseLine, lines, i);
  }

  /** Settling one more effect updates the settled screen by it. */
  lemma SettleOneMore(effects: seq<Effect>, e: Effect)
    ensures Settle(effects + [e]) == Update(Settle(effects), e)
  {
    assert (effects + [e])[..|effects|] == effects;
  }

  /**
   * The streaming loop over the downloader's output: each line is stripped,
   * appended to the full log, the window of the last 18 lines is shown, and
   * the line's effect is applied. Afterwards the window holds the last (at
   * most 18) stripped lines in arrival order, and the progress bar and
   * status are what the effects of all lines settle to.
   */
  method Stream(lines: seq<string>) returns (screen: Screen)
    ensures |screen.log| == if |lines| < WindowSize then |lines| else WindowSize
    ensures forall k :: 0 <= k < |screen.log| ==>
      screen.log[k] == StripNewlines(lines[|lines| - |screen.log| + k])
    ensures screen.(log := []) == Settle(LineEffects(lines))
  {
    var fullLog: seq<string> := [];
    var window: seq<string> := [];
    var progress: nat := 0;
    var status: Option<Label> := None;
    ghost var effects: seq<Effect> := [];
    var i := 0;
    while i < |lines|
      invariant i <= |lines|
      invariant fullLog == StripAll(lines[..i])
      invariant window == LastN(fullLog, WindowSize)
      invariant effects == LineEffects(lines[..i])
      invariant Screen(progress, status, []) == Settle(effects)
    {
      var line := StripNewlines(lines[i]);
      LogOneMore(lines, i);
      OneMoreLine(lines, i);
      fullLog := fullLog + [line];
      window := LastN(fullLog, WindowSize);
      var e := ParseLine(line);
      SettleOneMore(effects, e);
      effects := effects + [e];
      var shown := Update(Screen(progress, status, []), e);
      progress, status := shown.progress, shown.status;
      i := i + 1;
    }
    assert lines[..i] == lines;
    screen := Screen(progress, status, window);
    WindowOfLines(lines);
  }

  /** The window over all lines holds the last (at most 18) stripped lines, in order. */
  lemma WindowOfLines(lines: seq<string>)
    ensures var w := LastN(StripAll(lines), WindowSize);
      && |w| == (if |lines| < WindowSize then |lines| else WindowSize)
      && forall k :: 0 <= k < |w| ==> w[k] == StripNewlines(lines[|lines| - |w| + k])
  {
    var log := StripAll(lines);
    assert |log| == |lines|;
  }

  function Last<T>(xs: seq<T>): T
    requires |xs| > 0
  {
    xs[|xs| - 1]
  }
}

=== FILE: progress_examples.dfy ===
/**
 * Worked log lines for the progress extraction: the decimal pattern read
 * from the middle of a line, an integer percentage, the leftmost-match
 * and greedy-repetition corner cases, the decimal pattern winning over an
 * earlier integer percentage, and status labels firing together.
 */
module ProgressExamples {
  import opened Strings
  import opened Progress

  const DownloadLine: string := "  42.5% of ~10MiB"

  lemma DownloadLineMatch()
    ensures LeftmostGreedy(DecimalPct, DownloadLine, 0, Match(2, 2))
  {
    var s := DownloadLine;
    assert !ShapeAt(DecimalPct, s, 0, DigitRun(s, 0, 3));
    assert !ShapeAt(DecimalPct, s, 1, DigitRun(s, 1, 3));
    assert ShapeAt(DecimalPct, s, 2, 2);
    FirstShape(DecimalPct, s, Match(2, 2));
  }

  lemma DownloadLineValue()
    ensures ShapeAt(DecimalPct, DownloadLine, 2, 2)
    ensures Tenths(DecimalPct, DownloadLine, Match(2, 2)) == 425
  {
    var s := DownloadLine;
    assert ShapeAt(DecimalPct, s, 2, 2);
    assert s[2..4] == "42";
    assert "42"[..1] == "4" && "4"[..0] == "";
    assert DigitsValue("4") == 4;
    assert DigitsValue("42") == 42;
    assert s[5] == '5';
  }

  /** A typical download line reads 42.5%. */
  lemma DecimalInText()
    ensures ParseLine(DownloadLine) == SetProgress(425)
  {
    DownloadLineMatch();
    DownloadLineValue();
    ParseLineDecimal(DownloadLine, Match(2, 2));
  }

  lemma HundredMatch()
    ensures !Matches(DecimalPct, "100%")
    ensures LeftmostGreedy(IntegerPct, "100%", 0, Match(0, 3))
  {
    var s := "100%";
    assert ShapeAt(IntegerPct, s, 0, 3);
    FirstShape(IntegerPct, s, Match(0, 3));
    assert forall i: nat :: i < |s| ==> !ShapeAt(DecimalPct, s, i, DigitRun(s, i, 3));
    NoShape(DecimalPct, s);
  }

  lemma HundredValue()
    ensures ShapeAt(IntegerPct, "100%", 0, 3)
    ensures Tenths(IntegerPct, "100%", Match(0, 3)) == 1000
  {
    var s := "100%";
    assert ShapeAt(IntegerPct, s, 0, 3);
    assert s[0..3] == "100";
    assert "100"[..2] == "10" && "10"[..1] == "1" && "1"[..0] == "";
    assert DigitsValue("1") == 1;
    assert DigitsValue("10") == 10;
    assert DigitsValue("100") == 100;
  }

  /** A bare "100%" reads 100%. */
  lemma IntegerHundred()
    ensures ParseLine("100%") == SetProgress(1000)
  {
    HundredMatch();
    HundredValue();
    ParseLineInteger("100%", Match(0, 3));
  }

  lemma OverflowMatch()
    ensures LeftmostGreedy(DecimalPct, "1234.5%", 0, Match(1, 3))
  {
    var s := "1234.5%";
    assert DigitRun(s, 0, 3) == 3;
    assert !ShapeAt(DecimalPct, s, 0, 3);
    assert ShapeAt(DecimalPct, s, 1, 3);
    FirstShape(DecimalPct, s, Match(1, 3));
  }

  lemma OverflowValue()
    ensures ShapeAt(DecimalPct, "1234.5%", 1, 3)
    ensures Tenths(DecimalPct, "1234.5%", Match(1, 3)) == 2345
  {
    var s := "1234.5%";
    assert ShapeAt(DecimalPct, s, 1, 3);
    assert s[1..4] == "234";
    assert "234"[..2] == "23" && "23"[..1] == "2" && "2"[..0] == "";
    assert DigitsValue("2") == 2;
    assert DigitsValue("23") == 23;
    assert DigitsValue("234") == 234;
    assert s[5] == '5';
  }

  /** "1234.5%" matches "234.5" (the start at "1" fails), which is clamped to 100%. */
  lemma LeftmostThenClamped()
    ensures ParseLine("1234.5%") == SetProgress(1000)
  {
    OverflowMatch();
    OverflowValue();
    ParseLineDecimal("1234.5%", Match(1, 3));
  }

  /** "1000%" matches "000", so the bar reads 0, not 100. */
  lemma ThousandMatch()
    ensures !Matches(DecimalPct, "1000%")
    ensures LeftmostGreedy(IntegerPct, "1000%", 0, Match(1, 3))
  {
    var s := "1000%";
    assert DigitRun(s, 0, 3) == 3;
    assert !ShapeAt(IntegerPct, s, 0, 3);
    assert ShapeAt(IntegerPct, s, 1, 3);
    FirstShape(IntegerPct, s, Match(1, 3));
    assert forall i: nat :: i < |s| ==> !ShapeAt(DecimalPct, s, i, DigitRun(s, i, 3));
    NoShape(DecimalPct, s);
  }

  lemma ThousandValue()
    ensures ShapeAt(IntegerPct, "1000%", 1, 3)
    ensures Tenths(IntegerPct, "1000%", Match(1, 3)) == 0
  {
    var s := "1000%";
    assert ShapeAt(IntegerPct, s, 1, 3);
    assert s[1..4] == "000";
    assert "000"[..2] == "00" && "00"[..1] == "0" && "0"[..0] == "";
    assert DigitsValue("0") == 0;
    assert DigitsValue("00") == 0;
  }

  lemma ThousandReadsZero()
    ensures ParseLine("1000%") == SetProgress(0)
  {
    ThousandMatch();
    ThousandValue();
    ParseLineInteger("1000%", Match(1, 3));
  }

  const MixedLine: string := "10% done, 3.5% left"

  lemma MixedLineDecimalMatch()
    ensures LeftmostGreedy(DecimalPct, MixedLine, 0, Match(10, 1))
  {
    var s := MixedLine;
    forall i: nat | i < 10 ensures !ShapeAt(DecimalPct, s, i, DigitRun(s, i, 3)) {
      if i >= 2 {
        assert !IsDigit(s[i]);
      }
    }
    assert ShapeAt(DecimalPct, s, 10, 1);
    FirstShape(DecimalPct, s, Match(10, 1));
  }

  lemma MixedLineValue()
    ensures ShapeAt(DecimalPct, MixedLine, 10, 1)
    ensures Tenths(DecimalPct, MixedLine, Match(10, 1)) == 35
  {
    var s := MixedLine;
    assert ShapeAt(DecimalPct, s, 10, 1);
    assert s[10..11] == "3";
    assert DigitsValue("3") == 3;
  }

  /** A later decimal percentage wins over an earlier integer one. */
  lemma DecimalBeatsEarlierInteger()
    ensures ParseLine(MixedLine) == SetProgress(35)
  {
    MixedLineDecimalMatch();
    MixedLineValue();
    ParseLineDecimal(MixedLine, Match(10, 1));
  }

  const StatusLine: string := "Merging formats; Embedding subtitles"

  lemma StatusLineHasNoPercent()
    ensures !Matches(DecimalPct, StatusLine) && !Matches(IntegerPct, StatusLine)
  {
    var s := StatusLine;
    assert forall k :: 0 <= k < |s| ==> !IsDigit(s[k]);
    NoShape(DecimalPct, s);
    NoShape(IntegerPct, s);
  }

  lemma StatusLineLacksDownloading()
    ensures !Contains(StatusLine, Phrase(Downloading))
  {
    assert 'D' !in StatusLine;
    LacksFirstChar(StatusLine, Phrase(Downloading));
  }

  lemma StatusLineHasMerging()
    ensures Contains(StatusLine, Phrase(Merging))
  {
    assert OccursAt(StatusLine, 0, Phrase(Merging));
  }

  lemma StatusLineHasEmbedding()
    ensures Contains(StatusLine, Phrase(Embedding))
  {
    assert OccursAt(StatusLine, 17, Phrase(Embedding));
  }

  lemma StatusLineLabels()
    ensures StatusLabels(StatusLine) == [Merging, Embedding]
  {
    StatusLineLacksDownloading();
    StatusLineHasMerging();
    StatusLineHasEmbedding();
  }

  /** With no percentage on the line, two status checks fire on the same line. */
  lemma TwoLabelsFire()
    ensures ParseLine(StatusLine) == SetStatus([Merging, Embedding])
  {
    ParseLineSetsProgressIff(StatusLine);
    StatusLineHasNoPercent();
    StatusLineLabels();
  }
}

=== FILE: strings.dfy ===
/**
 * Python `str` operations stated over `seq<char>`: substring search (`in`,
 * `str.split(sep)[0]`, `str.split`), `sep.join` and `str.rstrip("\n")`,
 * which the downloader calls, plus prefix and suffix tests on which the
 * glob predicates are built.
 */
module Strings {

  /** `pat` occurs in `s` starting at index `i`. */
  predicate OccursAt(s: string, i: nat, pat: string) {
    i + |pat| <= |s| && s[i..i + |pat|] == pat
  }

  /** `pat` occurs nowhere in `s`. */
  ghost predicate Free(s: string, pat: string) {
    forall i: nat :: !OccursAt(s, i, pat)
  }

  predicate StartsWith(s: string, prefix: string) {
    |prefix| <= |s| && s[..|prefix|] == prefix
  }

  predicate EndsWith(s: string, suffix: string) {
    |suffix| <= |s| && s[|s| - |suffix|..] == suffix
  }

  /** An occurrence inside a prefix of `s` is an occurrence in `s`. */
  lemma OccursInPrefix(s: string, k: nat, i: nat, pat: string)
    requires k <= |s|
    ensures OccursAt(s[..k], i, pat) <==> i + |pat| <= k && OccursAt(s, i, pat)
  {
    if i + |pat| <= k {
      assert s[..k][i..i + |pat|] == s[i..i + |pat|];
    }
  }

  /** Index of the first occurrence of `pat` at or after `from`, or `|s|` if there is none. */
  function IndexOf(s: string, pat: string, from: nat): (r: nat)
    requires |pat| > 0
    requires from <= |s|
    ensures from <= r <= |s|
    ensures forall j: nat :: from <= j < r ==> !OccursAt(s, j, pat)
    ensures r < |s| ==> OccursAt(s, r, pat)
    ensures r == |s| ==> forall j: nat :: from <= j ==> !OccursAt(s, j, pat)
    decreases |s| - from
  {
    if from + |pat| > |s| then |s|
    else if s[from..from + |pat|] == pat then from
    else IndexOf(s, pat, from + 1)
  }

  /** Python's `pat in s`, for a non-empty `pat`. */
  function Contains(s: string, pat: string): (b: bool)
    requires |pat| > 0
    ensures b <==> exists i: nat :: OccursAt(s, i, pat)
  {
    IndexOf(s, pat, 0) < |s|
  }

  /** A string lacking the first character of `pat` does not contain `pat`. */
  lemma LacksFirstChar(s: string, pat: string)
    requires |pat| > 0 && pat[0] !in s
    ensures !Contains(s, pat)
  {
    forall i: nat | i < |s| ensures !OccursAt(s, i, pat) {
      assert s[i] in s;
    }
  }

  /** Python's `s.split(sep)[0]`: everything before the first `sep`, or all of `s`. */
  function Before(s: string, sep: string): (r: string)
    requires |sep| > 0
    ensures |r| <= |s| && r == s[..|r|]
    ensures forall i: nat :: i < |r| ==> !OccursAt(s, i, sep)
    ensures |r| < |s| ==> OccursAt(s, |r|, sep)
    ensures Free(r, sep)
  {
    var k := IndexOf(s, sep, 0);
    forall i: nat ensures !OccursAt(s[..k], i, sep) {
      OccursInPrefix(s, k, i, sep);
    }
    s[..k]
  }

  /** The total length of the strings in `xs`. */
  function TotalLength(xs: seq<string>): nat
    decreases |xs|
  {
    if |xs| == 0 then 0 else |xs[0]| + TotalLength(xs[1..])
  }

  /**
   * Python's `sep.join(xs)`: the first element starts the result, the last
   * ends it, and the result is as long as the elements plus one separator
   * per gap between them.
   */
  function Join(xs: seq<string>, sep: string): (r: string)
    ensures |xs| == 0 ==> r == ""
    ensures |xs| > 0 ==> StartsWith(r, xs[0]) && EndsWith(r, xs[|xs| - 1])
    ensures |xs| > 0 ==> |r| == TotalLength(xs) + (|xs| - 1) * |sep|
    decreases |xs|
  {
    if |xs| == 0 then ""
    else if |xs| == 1 then
      assert TotalLength(xs) == |xs[0]| + TotalLength(xs[1..]);
      xs[0]
    else
      var rest := Join(xs[1..], sep);
      assert TotalLength(xs) == |xs[0]| + TotalLength(xs[1..]);
      assert xs[1..][|xs| - 2] == xs[|xs| - 1];
      GapCount(|xs| - 2, |sep|);
      var r := xs[0] + sep + rest;
      assert r[..|xs[0]|] == xs[0];
      assert r[|r| - |rest|..] == rest;
      r
  }

  /** One more gap adds one more separator length. */
  lemma GapCount(gaps: nat, width: nat)
    ensures width + gaps * width == (gaps + 1) * width
  {
  }

  /** Python's `s.split(sep)`: the pieces between successive occurrences of `sep`. */
  function Split(s: string, sep: string): (parts: seq<string>)
    requires |sep| > 0
    ensures |parts| >= 1
    decreases |s|
  {
    var k := IndexOf(s, sep, 0);
    if k == |s| then [s] else [s[..k]] + Split(s[k + |sep|..], sep)
  }

  /** For a one-character separator, an occurrence is just that character. */
  lemma OccursAtChar(s: string, i: nat, c: char)
    ensures OccursAt(s, i, [c]) <==> i < |s| && s[i] == c
  {
    if i < |s| {
      assert s[i..i + 1] == [s[i]];
    }
  }

  /**
   * Splitting a comma-joined list at the comma gives the list back,
   * provided no element contains the comma itself.
   */
  lemma {:induction false} SplitJoin(xs: seq<string>, c: char)
    requires |xs| > 0
    requires forall k :: 0 <= k < |xs| ==> c !in xs[k]
    ensures Split(Join(xs, [c]), [c]) == xs
    decreases |xs|
  {
    var s := Join(xs, [c]);
    if |xs| == 1 {
      assert s == xs[0];
      forall j: nat | j < |s| ensures !OccursAt(s, j, [c]) {
        OccursAtChar(s, j, c);
      }
      assert IndexOf(s, [c], 0) == |s|;
    } else {
      var rest := Join(xs[1..], [c]);
      assert s == xs[0] + [c] + rest;
      var k := IndexOf(s, [c], 0);
      forall j: nat | j < |xs[0]| ensures !OccursAt(s, j, [c]) {
        OccursAtChar(s, j, c);
        assert s[j] == xs[0][j];
      }
      OccursAtChar(s, |xs[0]|, c);
      assert k == |xs[0]|;
      assert s[..k] == xs[0];
      assert s[k + 1..] == rest;
      SplitJoin(xs[1..], c);
      assert xs == [xs[0]] + xs[1..];
    }
  }

  /**
   * Python's `s.rstrip("\n")`: the result is a prefix of `s` that does not
   * end in a newline, and everything cut off is newlines.
   */
  function StripNewlines(s: string): (r: string)
    ensures |r| <= |s| && r == s[..|r|]
    ensures |r| == 0 || r[|r| - 1] != '\n'
    ensures forall i :: |r| <= i < |s| ==> s[i] == '\n'
    decreases |s|
  {
    if |s| > 0 && s[|s| - 1] == '\n' then StripNewlines(s[..|s| - 1]) else s
  }
}

=== FILE: url.dfy ===
/**
 * `sanitize_url`: the URL is cut at the first `&t=` and then at the first
 * `?t=`, so that a timestamp parameter and everything after it is dropped.
 */
module Url {
  import opened Strings

  const AmpMarker: string := "&t="
  const QueryMarker: string := "?t="

  /** A timestamp parameter starts at index `i` of `s`. */
  predicate MarkerAt(s: string, i: nat) {
    OccursAt(s, i, AmpMarker) || OccursAt(s, i, QueryMarker)
  }

  /** `s` holds no timestamp parameter. */
  ghost predicate Clean(s: string) {
    forall i: nat :: !MarkerAt(s, i)
  }

  /**
   * The sanitised URL is the part of `url` before its first timestamp
   * parameter: a prefix in which no marker starts, ending where one starts
   * (or at the end of `url`).
   */
  function Sanitize(url: string): (r: string)
    ensures |r| <= |url| && r == url[..|r|]
    ensures forall i: nat :: i < |r| ==> !MarkerAt(url, i)
    ensures |r| < |url| ==> MarkerAt(url, |r|)
  {
    CutBeforeMarkers(url);
    Before(Before(url, AmpMarker), QueryMarker)
  }

  /** The facts behind `Sanitize`'s contract, for the two cuts in a row. */
  lemma CutBeforeMarkers(url: string)
    ensures var r := Before(Before(url, AmpMarker), QueryMarker);
      && (forall i: nat :: i < |r| ==> !MarkerAt(url, i))
      && (|r| < |url| ==> MarkerAt(url, |r|))
  {
    var a := Before(url, AmpMarker);
    var r := Before(a, QueryMarker);
    forall i: nat | i < |r| ensures !OccursAt(url, i, QueryMarker) {
      OccursInPrefix(url, |a|, i, QueryMarker);
      if i + 3 > |a| && i + 3 <= |url| {
        // a `?t=` cannot overlap the `&t=` that ends `a`
        assert OccursAt(url, |a|, AmpMarker);
        assert url[|a|] == url[|a|..|a| + 3][0] == '&';
        assert url[i..i + 3][|a| - i] == url[|a|];
      }
    }
    if |r| == |a| && |a| < |url| {
      assert OccursAt(url, |a|, AmpMarker);
    } else if |r| < |a| {
      OccursInPrefix(url, |a|, |r|, QueryMarker);
    }
  }

  /** The result never contains a timestamp parameter. */
  lemma SanitizeIsClean(url: string)
    ensures Clean(Sanitize(url))
  {
    var r := Sanitize(url);
    forall i: nat ensures !MarkerAt(r, i) {
      OccursInPrefix(url, |r|, i, AmpMarker);
      OccursInPrefix(url, |r|, i, QueryMarker);
    }
  }

  /** A URL is left unchanged exactly when it holds no timestamp parameter. */
  lemma SanitizeFixesClean(url: string)
    ensures Sanitize(url) == url <==> Clean(url)
  {
    SanitizeIsClean(url);
  }

  /** Sanitising twice is the same as sanitising once. */
  lemma SanitizeIdempotent(url: string)
    ensures Sanitize(Sanitize(url)) == Sanitize(url)
  {
    SanitizeIsClean(url);
    SanitizeFixesClean(Sanitize(url));
  }

  /** No marker starts inside a clean `u` once a marker is appended to it. */
  lemma NoMarkerBefore(u: string, marker: string, tail: string, i: nat)
    requires Clean(u)
    requires marker == AmpMarker || marker == QueryMarker
    requires i < |u|
    ensures !MarkerAt(u + marker + tail, i)
  {
    var s := u + marker + tail;
    if i + 3 <= |u| {
      assert s[i..i + 3] == u[i..i + 3];
      assert !MarkerAt(u, i);
    } else if i + 3 <= |s| {
      // a marker here would straddle the end of `u`: its `t` or `=` would
      // have to be the leading `&` or `?` of the appended marker
      assert s[i..i + 3][|u| - i] == marker[0];
    }
  }

  /**
   * Appending a timestamp parameter (`&t=…` or `?t=…`) to a clean URL and
   * sanitising gives back exactly the clean URL.
   */
  lemma SanitizeDropsTimestamp(u: string, tail: string)
    requires Clean(u)
    ensures Sanitize(u + AmpMarker + tail) == u
    ensures Sanitize(u + QueryMarker + tail) == u
  {
    DropsMarker(u, AmpMarker, tail);
    DropsMarker(u, QueryMarker, tail);
  }

  lemma DropsMarker(u: string, marker: string, tail: string)
    requires Clean(u)
    requires marker == AmpMarker || marker == QueryMarker
    ensures Sanitize(u + marker + tail) == u
  {
    var s := u + marker + tail;
    var r := Sanitize(s);
    assert s[|u|..|u| + 3] == marker;
    assert MarkerAt(s, |u|);
    if |r| < |u| {
      NoMarkerBefore(u, marker, tail, |r|);
    }
    assert |r| == |u|;
    assert s[..|u|] == u;
  }
}
